=== FILE: README.md ===
# CV layout engine (`CVGenerator`) in Dafny

This project models the PDF layout routine of a CV builder. `CVGenerator(design)`
resolves a design name to two colours and a font. `create_cv(data)` then lays a
CV record out on an FPDF canvas. First comes a coloured header band with the
name, job title and contact line. Then come up to six body sections in a fixed
order: Professional Summary, Experience, Education, Certificates, Skills &
Languages, References. Each section is drawn only when its data is present.

FPDF itself is not modelled. Each call the generator makes on the canvas
(`set_margins`, `set_auto_page_break`, `add_page`, `set_font`,
`set_fill_color`, `set_text_color`, `rect`, `cell`, `multi_cell`, `ln`) becomes
one `DrawOp`. The layout is the pure function `Layout.CreateCV(style, record)`
returning the sequence of these ops. `Layout.Document(design, record)` adds the
constructor's calls in front.

The record is a dictionary whose keys may be missing (`Option`). Text fields
hold strings. The fields that the code passes through `str()` or compares with
`== 1` (`gradYear`, `year`, `cgpa`, `isCurrentlyWorking`) hold a JSON scalar
(`Record.Value`: null, boolean, integer or text), and Python's `str()` is
modelled for each of these.

Files and modules:

- `wrappers.dfy` (`Wrappers`): `Option`.
- `text.dfy` (`Text`): upper-casing, `sep.join`, and decimal rendering of integers with its inverse.
- `draw.dfy` (`Draw`): the `DrawOp` type and ways to read a call sequence back. `TextsWhere` returns the texts of selected cells. `LinesFit` checks that every printed line is exactly one width.
- `styles.dfy` (`Styles`): `DESIGN_CONFIGS` and the lookup with its default.
- `record.dfy` (`Record`): the CV record, Python truthiness, `str()` and `== 1`.
- `layout.dfy` (`Layout`): the generator, text composition, the per-entry blocks, the sections and `create_cv`.
- `entries.dfy` (`EntryLayout`): facts about each fixed block of calls.
- `cv_properties.dfy` (`CVProperties`): facts about each guarded section and the fixed order.
- `document.dfy` (`DocumentProperties`): facts about the whole document.

What `create_cv` does not do:

- It takes no section order from the caller. The six sections always come in the fixed order above.
- It draws no photo and reads no theme colour or font choice from the record. The header is always the full-width band.
- It does not upper-case the name. Only the job title is upper-cased.
- It joins job title and company with `" - "`. It draws only `achievements` and reads no `description` field.
- It always draws the school and CGPA line of an education entry. No field is hidden depending on the degree.
- A present but empty skills list still suppresses the "Skills:" line. A non-empty skills list whose entries all lack a name still draws "Skills: " with nothing after it.

## Model

| member | source | states |
|---|---|---|
| Styles.LookupStyle | pdf_generator.py:22 | The lookup never fails. It always returns one of the table's entries: the named one when the name is in the table, the "professional" one otherwise. Its font is always "times". |
| Styles.DesignTableShape | pdf_generator.py:4-15 | The table holds exactly the ten design names, including "professional", and every entry's font is "times". |
| Styles.UnknownDesignFallsBack | pdf_generator.py:22 | Any name outside the table gives exactly the style of "professional". |
| Layout.NewGenerator | pdf_generator.py:18-23 | The generator carries the looked-up style. Its left, right and top margins are each 15. The page width less the left and right margins is the 180-unit cell width. Automatic page breaks are on with a 15-unit margin. |
| Text.Upper | pdf_generator.py:29 | Upper-casing keeps the length and upper-cases each character on its own (ASCII letters only). |
| Text.UpperIdempotent | pdf_generator.py:43 | Upper-casing an already upper-cased text changes nothing. |
| Text.JoinContainsPart | pdf_generator.py:101 | Every part of `sep.join(parts)` appears unchanged at its own offset: the lengths of the parts before it, each followed by a separator. |
| Text.JoinLength | pdf_generator.py:104 | The joined text is as long as all parts together plus one separator between each pair of neighbours. |
| Text.IntDecimalRoundTrip | pdf_generator.py:92 | The decimal text of an integer reads back as the same integer. |
| Text.CanonicalDecimalRoundTrip | pdf_generator.py:92 | The converse: a decimal text in `str`'s form (no leading zero, no "-0") is exactly the text of the integer it reads as. Together with the round trip above, `str` of an integer is fixed. |
| Record.Str | pdf_generator.py:78 | `str()` returns text values unchanged. For an integer it returns the decimal in canonical form (no leading zero, '-' only for negatives) that reads back as that integer. `None` becomes "None", and booleans become "True" or "False". |
| Layout.SkillNames | pdf_generator.py:101 | The skills listed are exactly the names of the entries whose name is non-empty, never more than there are entries, and none of them is empty. |
| Layout.LanguageTexts | pdf_generator.py:104 | The languages listed are exactly `name (level)` for the entries whose name is non-empty. |
| DocumentProperties.SkillNamesFilter | pdf_generator.py:101 | The skills listing keeps the entries' order and count. Splitting the entries anywhere splits the listing at the same place. One entry contributes its name exactly when the name is non-empty. |
| DocumentProperties.LanguageTextsFilter | pdf_generator.py:104 | The languages listing keeps the entries' order and count. Splitting the entries anywhere splits the listing at the same place. One entry contributes `name (level)` exactly when the name is non-empty. |
| EntryLayout.SectionHeaderLayout | pdf_generator.py:25-31 | A section banner has exactly one banner cell, reading two spaces and the upper-cased title. It is the fourth call, right after setting the secondary fill and the primary text colour. It fills one full 180-unit line, and ends by setting the text colour back to black. |
| EntryLayout.HeaderLayout | pdf_generator.py:35-49 | The header band has no banner and no right-aligned cell. Its lines are all full width, and its font and colours come from the design. |
| EntryLayout.ExperienceEntryLayout | pdf_generator.py:61-69 | An experience entry's title cell is job title and company joined by " - ". Its only right-aligned text is its duration. The 120-unit title cell and the 60-unit duration cell share one full line. Its only text block is the achievements, on the next full line. |
| EntryLayout.EducationEntryLayout | pdf_generator.py:74-83 | An education entry's left-aligned texts are "degree in field", then "school \| CGPA: cgpa". The school line is always drawn. The 120-unit title cell and the 60-unit `str(gradYear)` cell share one line, and `str(gradYear)` is the only right-aligned text. The school line fills the next full line. Its only text block is "Project: " plus the project, drawn exactly when the project is non-empty. All lines are full width. |
| EntryLayout.CertificateEntryLayout | pdf_generator.py:88-94 | A certificate's only right-aligned text is `str(year)`. Its left-aligned texts are the name, then the organisation. The 140-unit name cell and the 40-unit year cell share one line. The organisation fills the next full line. |
| EntryLayout.ReferenceEntryLayout | pdf_generator.py:111-116 | A reference's only left-aligned text is its name, on one full 180-unit line. Its only text block is "job at organization \| phone". |
| CVProperties.SummaryText | pdf_generator.py:51-55 | The summary section's only text block is the summary itself, drawn exactly when the summary is non-empty. |
| CVProperties.SectionLayout | pdf_generator.py:51-116 | A section draws nothing at all, not even a banner, exactly when its guarding field is missing or empty. Otherwise it draws exactly its own banner, only full-width lines, and only the design's font and colours. |
| CVProperties.PresentSections | pdf_generator.py:52-109 | The sections drawn are exactly those whose guard holds, in strictly increasing fixed order. |
| CVProperties.HeadingTextInjective | pdf_generator.py:29 | Two sections with the same banner text are the same section. |
| DocumentProperties.SectionsInFixedOrder | pdf_generator.py:51-116 | The banners read back from the whole document name exactly the present sections, each once, in the order Summary, Experience, Education, Certificates, Skills & Languages, References. |
| DocumentProperties.HeaderOnlyIffNothingPresent | pdf_generator.py:33-116 | The document is the header band alone if and only if no section has data. |
| DocumentProperties.HeaderComesFirst | pdf_generator.py:35-49 | For every record the document opens with the filled primary-colour rectangle (0, 0, 210, 50). It then draws, in white: first and last name joined by a space (a missing key reads as ""); the upper-cased job title; and email, phone and address joined by " \| ". The three cells are set in 24-point bold, 14-point and 10-point type, with no colour change between them. Then comes a 12-unit break, and finally black text. |
| DocumentProperties.DocumentLinesFit | pdf_generator.py:18-116 | Every line of the whole document is exactly the page width less the two margins (180 of 210), and no line is left open. |
| DocumentProperties.DocumentStyledByDesign | pdf_generator.py:4-116 | Every font the document sets is the design's font, which is "times". Every fill colour is the design's primary or secondary colour. Every text colour is primary, white or black. |
| DocumentProperties.DurationMarksPresent | pdf_generator.py:64-67 | The duration text is the duration and a space, followed by "(Present)" exactly when `isCurrentlyWorking == 1` (the integer 1 or `True`) and by nothing otherwise. |
| DocumentProperties.ExperienceDurations | pdf_generator.py:59-69 | The experience section's right-aligned texts are one duration per entry, in order. Entry i's duration ends in "(Present)" exactly when that job is current. |
| DocumentProperties.CertificateYearAsText | pdf_generator.py:92 | A certificate year given as the integer n, or as the text of n, draws identical calls. The year cell reads back as n. |
| DocumentProperties.GradYearAsText | pdf_generator.py:78 | A graduation year given as the integer n, or as the text of n, draws identical calls. The year cell reads back as n. |
| DocumentProperties.SkillsAndLanguagesLines | pdf_generator.py:97-106 | The section is drawn exactly when skills or languages is non-empty. Its text blocks are a "Skills: " line when skills is non-empty and a "Languages: " line when languages is non-empty, each joined by ", ". |
| DocumentProperties.HeadingsResetTextColour | pdf_generator.py:29-31 | Anywhere in the document, every banner cell is followed at once by a 2-unit break and a switch back to black text. |

## Left out

- FPDF's own behaviour is not modelled: glyph metrics, line wrapping inside `multi_cell`, automatic page breaks and the bytes returned by `output()`. These belong to the library, so every call is an opaque `DrawOp`, and `create_cv`'s final `return self.output()` is not modelled.
- `DocumentProperties.DocumentLinesFit` treats each `multi_cell` as a line of its own. Where FPDF leaves the cursor after a `multi_cell` depends on the library version, which is not part of this model.
- Text.Upper: upper-cases ASCII letters only. Python's `str.upper` also maps other Unicode letters, some to more than one character (for example "ß" to "SS").
- Record.Str: has no floating-point case. A CGPA sent as a float (such as 3.5) would render through Python's float formatting, which is not modelled. A float 1.0 in `isCurrentlyWorking` also compares equal to 1 in Python; the model does not include it.
- Text fields (names, titles, email, phone, address, summary, durations, achievements, project, skill and language names, reference fields) are typed as strings or missing. This is a modelling choice: most of these fields are not typed at the request boundary, and most of their database columns allow null. A non-string value or an explicit `null` in these fields is not modelled. Python would render a `null` as "None" in an f-string; a null language `level`, for instance, would read "(None)". A null job title would make `.upper()` raise. A null skill or language name is filtered out before `join`, but a truthy non-string name would make `join` raise.
- Font style and size are recorded in each `SetFont` op. Only the header band's three fonts are fixed by a contract (`DocumentProperties.HeaderComesFirst`). For every other `SetFont`, nothing beyond the family is proved.
- `cv_backend.py` and `main.py` (HTTP endpoints and a database upsert), `setup_db.py` (database client and schema text), `constants.py` (static option lists) and the Android build file are not part of this model: they are I/O, configuration or data with no layout logic.

=== FILE: cv_properties.dfy ===
/**
 * What `create_cv` promises about the whole document: the header band always
 * comes first; the body sections appear in the fixed order, each exactly when
 * its data is present and never as an empty banner; every line fills the
 * printable width; fonts and colours come from the design; and the texts of
 * the experience, education, certificate and skills lines are composed as
 * stated.
 */
module CVProperties {
  import opened Wrappers
  import opened Text
  import opened Draw
  import opened Styles
  import opened Record
  import opened Layout
  import opened EntryLayout

  // ---------------------------------------------------------------------------
  // Sections in order

  /** Ranks strictly increase along `secs`. */
  predicate Increasing(secs: seq<Section>)
  {
    forall i, j :: 0 <= i < j < |secs| ==> Rank(secs[i]) < Rank(secs[j])
  }

  /** The sections of `order` whose data is present, keeping their order. */
  function PresentAmong(rec: CVRecord, order: seq<Section>): (secs: seq<Section>)
    ensures forall s :: s in secs <==> s in order && Present(rec, s)
    ensures Increasing(order) ==> Increasing(secs)
  {
    if order == [] then []
    else
      var rest := PresentAmong(rec, order[1..]);
      assert Increasing(order) ==> forall s :: s in rest ==> Rank(order[0]) < Rank(s);
      if Present(rec, order[0]) then [order[0]] + rest else rest
  }

  /** `SectionOrder` lists every section, in increasing rank. */
  lemma EverySectionInOrder()
    ensures forall s :: s in SectionOrder
    ensures Increasing(SectionOrder)
  {
    forall s: Section ensures s in SectionOrder {
      assert SectionOrder[Rank(s)] == s;
    }
  }

  /** The sections `create_cv` draws for `rec`, in the order it draws them. */
  function PresentSections(rec: CVRecord): (secs: seq<Section>)
    ensures forall s :: s in secs <==> Present(rec, s)
    ensures Increasing(secs)
  {
    EverySectionInOrder();
    PresentAmong(rec, SectionOrder)
  }

  /** The banner texts of the given sections, one per section, in order. */
  function HeadingsOf(secs: seq<Section>): (hs: seq<string>)
    ensures |hs| == |secs|
    ensures forall i :: 0 <= i < |secs| ==> hs[i] == HeadingText(secs[i])
  {
    if secs == [] then [] else [HeadingText(secs[0])] + HeadingsOf(secs[1..])
  }

  /** The first two letters of a section's banner, after its two leading spaces. */
  function Initials(sec: Section): string
  {
    match sec
    case SummarySection => "PR"
    case ExperienceSection => "EX"
    case EducationSection => "ED"
    case CertificatesSection => "CE"
    case SkillsSection => "SK"
    case ReferencesSection => "RE"
  }

  lemma HeadingInitials(sec: Section)
    ensures |HeadingText(sec)| >= 4 && HeadingText(sec)[2..4] == Initials(sec)
  {
    var t := Title(sec);
    var u := Upper(t);
    assert |t| >= 2;
    assert HeadingText(sec) == "  " + u;
    assert HeadingText(sec)[2..4] == [u[0], u[1]];
    assert u[0] == UpperChar(t[0]) && u[1] == UpperChar(t[1]);
    match sec
    case SummarySection => assert t[0] == 'P' && t[1] == 'r';
    case ExperienceSection => assert t[0] == 'E' && t[1] == 'x';
    case EducationSection => assert t[0] == 'E' && t[1] == 'd';
    case CertificatesSection => assert t[0] == 'C' && t[1] == 'e';
    case SkillsSection => assert t[0] == 'S' && t[1] == 'k';
    case ReferencesSection => assert t[0] == 'R' && t[1] == 'e';
  }

  /** Distinct sections have distinct banners, so a banner names its section. */
  lemma HeadingTextInjective(a: Section, b: Section)
    requires HeadingText(a) == HeadingText(b)
    ensures a == b
  {
    HeadingInitials(a);
    HeadingInitials(b);
    assert Initials(a) == Initials(b);
  }

  lemma SummaryBodyLayout(st: Style, rec: CVRecord)
    requires Present(rec, SummarySection)
    ensures var ops := SectionBody(st, rec, SummarySection);
      && TextsWhere(ops, IsHeadingCell) == [] && LinesFit(ops, FullWidth) && AllStyledBy(ops, st)
      && TextsWhere(ops, IsBlock) == [rec.summary.value]
  {
    var ops := SectionBody(st, rec, SummarySection);
    TextsWhereNone(ops, IsHeadingCell);
    TextsWhereSingle(ops, IsBlock, 1);
    assert RunLines(ops[2..], Fresh, FullWidth) == Fresh;
  }

  lemma SkillsBodyLayout(st: Style, rec: CVRecord)
    requires Present(rec, SkillsSection)
    ensures var ops := SectionBody(st, rec, SkillsSection);
      TextsWhere(ops, IsHeadingCell) == [] && LinesFit(ops, FullWidth) && AllStyledBy(ops, st)
  {
    var ops := SectionBody(st, rec, SkillsSection);
    TextsWhereNone(ops, IsHeadingCell);
    var a := [SetFont(st.font, "", 10)];
    var b := if HasItems(rec.skills) then [MultiCell(FullWidth, 6, SkillsLine(rec.skills.value))] else [];
    var c := if HasItems(rec.languages) then [MultiCell(FullWidth, 6, LanguagesLine(rec.languages.value))] else [];
    var d := [Ln(4)];
    assert ops == a + b + c + d;
    assert LinesFit(a, FullWidth) && LinesFit(b, FullWidth) && LinesFit(c, FullWidth) && LinesFit(d, FullWidth);
    LinesFitConcat(a, b, FullWidth);
    LinesFitConcat(a + b, c, FullWidth);
    LinesFitConcat(a + b + c, d, FullWidth);
  }

  lemma ExperienceBodyLayout(st: Style, rec: CVRecord)
    requires Present(rec, ExperienceSection)
    ensures var ops := SectionBody(st, rec, ExperienceSection);
      TextsWhere(ops, IsHeadingCell) == [] && LinesFit(ops, FullWidth) && AllStyledBy(ops, st)
  {
    var xs := rec.experience.value;
    var f := e => ExperienceEntryOps(st, e);
    forall i | 0 <= i < |xs|
      ensures TextsWhere(f(xs[i]), IsHeadingCell) == [] && LinesFit(f(xs[i]), FullWidth) && AllStyledBy(f(xs[i]), st)
    {
      ExperienceEntryLayout(st, xs[i]);
    }
    EmitEachNoTexts(xs, f, IsHeadingCell);
    EmitEachLinesFit(xs, f, FullWidth);
    EmitEachAll(xs, f, op => StyledBy(op, st));
  }

  lemma EducationBodyLayout(st: Style, rec: CVRecord)
    requires Present(rec, EducationSection)
    ensures var ops := SectionBody(st, rec, EducationSection);
      TextsWhere(ops, IsHeadingCell) == [] && LinesFit(ops, FullWidth) && AllStyledBy(ops, st)
  {
    var xs := rec.education.value;
    var f := e => EducationEntryOps(st, e);
    forall i | 0 <= i < |xs|
      ensures TextsWhere(f(xs[i]), IsHeadingCell) == [] && LinesFit(f(xs[i]), FullWidth) && AllStyledBy(f(xs[i]), st)
    {
      EducationEntryLayout(st, xs[i]);
    }
    EmitEachNoTexts(xs, f, IsHeadingCell);
    EmitEachLinesFit(xs, f, FullWidth);
    EmitEachAll(xs, f, op => StyledBy(op, st));
  }

  lemma CertificatesBodyLayout(st: Style, rec: CVRecord)
    requires Present(rec, CertificatesSection)
    ensures var ops := SectionBody(st, rec, CertificatesSection);
      TextsWhere(ops, IsHeadingCell) == [] && LinesFit(ops, FullWidth) && AllStyledBy(ops, st)
  {
    var xs := rec.certificates.value;
    var f := c => CertificateEntryOps(st, c);
    forall i | 0 <= i < |xs|
      ensures TextsWhere(f(xs[i]), IsHeadingCell) == [] && LinesFit(f(xs[i]), FullWidth) && AllStyledBy(f(xs[i]), st)
    {
      CertificateEntryLayout(st, xs[i]);
    }
    EmitEachNoTexts(xs, f, IsHeadingCell);
    EmitEachLinesFit(xs, f, FullWidth);
    EmitEachAll(xs, f, op => StyledBy(op, st));
  }

  lemma ReferencesBodyLayout(st: Style, rec: CVRecord)
    requires Present(rec, ReferencesSection)
    ensures var ops := SectionBody(st, rec, ReferencesSection);
      TextsWhere(ops, IsHeadingCell) == [] && LinesFit(ops, FullWidth) && AllStyledBy(ops, st)
  {
    var xs := rec.userReferences.value;
    var f := r => ReferenceEntryOps(st, r);
    forall i | 0 <= i < |xs|
      ensures TextsWhere(f(xs[i]), IsHeadingCell) == [] && LinesFit(f(xs[i]), FullWidth) && AllStyledBy(f(xs[i]), st)
    {
      ReferenceEntryLayout(st, xs[i]);
    }
    EmitEachNoTexts(xs, f, IsHeadingCell);
    EmitEachLinesFit(xs, f, FullWidth);
    EmitEachAll(xs, f, op => StyledBy(op, st));
  }

  lemma BodyLayout(st: Style, rec: CVRecord, sec: Section)
    requires Present(rec, sec)
    ensures var ops := SectionBody(st, rec, sec);
      TextsWhere(ops, IsHeadingCell) == [] && LinesFit(ops, FullWidth) && AllStyledBy(ops, st)
  {
    match sec
    case SummarySection => SummaryBodyLayout(st, rec);
    case ExperienceSection => ExperienceBodyLayout(st, rec);
    case EducationSection => EducationBodyLayout(st, rec);
    case CertificatesSection => CertificatesBodyLayout(st, rec);
    case SkillsSection => SkillsBodyLayout(st, rec);
    case ReferencesSection => ReferencesBodyLayout(st, rec);
  }

  /**
   * One guarded block of `create_cv`: it draws nothing at all when its data
   * is missing or empty, and otherwise exactly one banner, its own, with only
   * full-width lines in the design's font and colours.
   */
  lemma SectionLayout(st: Style, rec: CVRecord, sec: Section)
    ensures var ops := SectionOps(st, rec, sec);
      && (ops == [] <==> !Present(rec, sec))
      && TextsWhere(ops, IsHeadingCell) == (if Present(rec, sec) then [HeadingText(sec)] else [])
      && LinesFit(ops, FullWidth)
      && AllStyledBy(ops, st)
  {
    if Present(rec, sec) {
      var head := SectionHeaderOps(st, Title(sec));
      var body := SectionBody(st, rec, sec);
      SectionHeaderLayout(st, Title(sec));
      BodyLayout(st, rec, sec);
      TextsWhereConcat(head, body, IsHeadingCell);
      LinesFitConcat(head, body, FullWidth);
      AllStyledConcat(head, body, st);
    } else {
      assert LinesFit([], FullWidth);
    }
  }

  /**
   * The summary section's only block of text is the summary itself, drawn
   * exactly when the summary is non-empty.
   */
  lemma SummaryText(st: Style, rec: CVRecord)
    ensures TextsWhere(SectionOps(st, rec, SummarySection), IsBlock)
         == (if HasText(rec.summary) then [rec.summary.value] else [])
  {
    if HasText(rec.summary) {
      var head := SectionHeaderOps(st, Title(SummarySection));
      TextsWhereNone(head, IsBlock);
      SummaryBodyLayout(st, rec);
      TextsWhereConcat(head, SectionBody(st, rec, SummarySection), IsBlock);
    }
  }
}

=== FILE: document.dfy ===
/**
 * Properties of the whole call sequence produced by `CVGenerator(design)`
 * followed by `create_cv(data)`, for every design name and every record.
 */
module DocumentProperties {
  import opened Wrappers
  import opened Text
  import opened Draw
  import opened Styles
  import opened Record
  import opened Layout
  import opened EntryLayout
  import opened CVProperties

  lemma {:induction false} HeadingsAmong(st: Style, rec: CVRecord, order: seq<Section>)
    ensures TextsWhere(EmitEach(order, sec => SectionOps(st, rec, sec)), IsHeadingCell)
            == HeadingsOf(PresentAmong(rec, order))
  {
    if order != [] {
      var f := sec => SectionOps(st, rec, sec);
      HeadingsAmong(st, rec, order[1..]);
      SectionLayout(st, rec, order[0]);
      TextsWhereConcat(f(order[0]), EmitEach(order[1..], f), IsHeadingCell);
    }
  }

  /**
   * The banners of the document, read back from the drawn cells, name
   * exactly the sections whose data is present, in the fixed order
   * Summary, Experience, Education, Certificates, Skills & Languages,
   * References, each once.
   */
  lemma SectionsInFixedOrder(st: Style, rec: CVRecord)
    ensures var secs := PresentSections(rec);
      && TextsWhere(CreateCV(st, rec), IsHeadingCell) == HeadingsOf(secs)
      && (forall s :: s in secs <==> Present(rec, s))
      && Increasing(secs)
  {
    HeaderLayout(st, rec);
    HeadingsAmong(st, rec, SectionOrder);
    TextsWhereConcat(HeaderOps(st, rec), BodyOps(st, rec), IsHeadingCell);
  }

  lemma HeadingsOfNonEmpty(secs: seq<Section>, s: Section)
    requires s in secs
    ensures HeadingsOf(secs) != []
  {
  }

  /**
   * A record none of whose sections has data draws the header band and
   * nothing else; any record with some section data draws more.
   */
  lemma HeaderOnlyIffNothingPresent(st: Style, rec: CVRecord)
    ensures CreateCV(st, rec) == HeaderOps(st, rec) <==> forall s :: !Present(rec, s)
  {
    if forall s :: !Present(rec, s) {
      forall i | 0 <= i < |SectionOrder|
        ensures (sec => SectionOps(st, rec, sec))(SectionOrder[i]) == []
      {
        SectionLayout(st, rec, SectionOrder[i]);
      }
      EmitEachEmpty(SectionOrder, sec => SectionOps(st, rec, sec));
      assert CreateCV(st, rec) == HeaderOps(st, rec) + [];
    } else {
      var s :| Present(rec, s);
      SectionsInFixedOrder(st, rec);
      HeaderLayout(st, rec);
      HeadingsOfNonEmpty(PresentSections(rec), s);
    }
  }

  /** The name and contact lines of the header, as `join`s of the record's fields. */
  lemma HeaderTexts(rec: CVRecord)
    ensures FullName(rec) == Join([Field(rec.firstName), Field(rec.lastName)], " ")
    ensures ContactLine(rec) == Join([Field(rec.email), Field(rec.phone), Field(rec.address)], " | ")
  {
    var name := [Field(rec.firstName), Field(rec.lastName)];
    assert name[1..] == [Field(rec.lastName)];
    var contact := [Field(rec.email), Field(rec.phone), Field(rec.address)];
    assert contact[1..] == [Field(rec.phone), Field(rec.address)];
    assert contact[1..][1..] == [Field(rec.address)];
  }

  /** The layout begins with the header band's eleven calls. */
  lemma HeaderPrefix(st: Style, rec: CVRecord)
    ensures |HeaderOps(st, rec)| == 11 && |CreateCV(st, rec)| >= 11
    ensures forall k :: 0 <= k < 11 ==> CreateCV(st, rec)[k] == HeaderOps(st, rec)[k]
  {
    assert CreateCV(st, rec) == HeaderOps(st, rec) + BodyOps(st, rec);
  }

  /**
   * Whatever the record holds, the document opens with the header band:
   * a filled primary-colour rectangle across the page, then in white the
   * name (first and last joined by a space, a missing key read as ""), the
   * upper-cased job title and the contact line (email, phone and address
   * joined by " | "), and finally black text again.
   */
  lemma HeaderComesFirst(st: Style, rec: CVRecord)
    ensures var ops := CreateCV(st, rec);
      && |ops| >= 11
      && ops[0] == SetFillColour(st.primary)
      && ops[1] == Rect(0, 0, PageWidth, BannerHeight, true)
      && ops[2] == SetTextColour(White)
      && ops[3] == SetFont(st.font, "B", 24)
      && ops[4] == Cell(FullWidth, 15, Join([Field(rec.firstName), Field(rec.lastName)], " "), true, Centre, false)
      && ops[5] == SetFont(st.font, "", 14)
      && ops[6] == Cell(FullWidth, 7, Upper(Field(rec.jobTitle)), true, Centre, false)
      && ops[7] == SetFont(st.font, "", 10)
      && ops[8] == Cell(FullWidth, 6, Join([Field(rec.email), Field(rec.phone), Field(rec.address)], " | "), true, Centre, false)
      && ops[9] == Ln(12)
      && ops[10] == SetTextColour(Black)
  {
    HeaderTexts(rec);
    HeaderPrefix(st, rec);
    var h := HeaderOps(st, rec);
    var ops := CreateCV(st, rec);
    assert ops[0] == h[0] && ops[1] == h[1] && ops[2] == h[2] && ops[3] == h[3];
    assert ops[4] == h[4] && ops[5] == h[5] && ops[6] == h[6] && ops[7] == h[7];
    assert ops[8] == h[8] && ops[9] == h[9] && ops[10] == h[10];
  }

  /**
   * Every line of the document, header and all sections, is exactly as wide
   * as the page less the generator's left and right margins (180 of 210).
   */
  lemma DocumentLinesFit(design: string, rec: CVRecord)
    ensures var g := NewGenerator(design);
      LinesFit(Document(design, rec), PageWidth - g.leftMargin - g.rightMargin)
  {
    var g := NewGenerator(design);
    var st := g.style;
    var setup := SetupOps(g);
    assert RunLines(setup[2..], Fresh, FullWidth) == Fresh;
    forall i | 0 <= i < |SectionOrder|
      ensures LinesFit((sec => SectionOps(st, rec, sec))(SectionOrder[i]), FullWidth)
    {
      SectionLayout(st, rec, SectionOrder[i]);
    }
    EmitEachLinesFit(SectionOrder, sec => SectionOps(st, rec, sec), FullWidth);
    HeaderLayout(st, rec);
    LinesFitConcat(HeaderOps(st, rec), BodyOps(st, rec), FullWidth);
    LinesFitConcat(setup, CreateCV(st, rec), FullWidth);
  }

  /**
   * Every font the document selects is the design's, which is "times" for
   * every design name; every fill colour is the design's primary or
   * secondary colour; every text colour is the primary colour, white or black.
   */
  lemma DocumentStyledByDesign(design: string, rec: CVRecord)
    ensures var ops := Document(design, rec);
      forall i :: 0 <= i < |ops| ==>
        && StyledBy(ops[i], LookupStyle(design))
        && (ops[i].SetFont? ==> ops[i].family == "times")
  {
    var g := NewGenerator(design);
    var st := g.style;
    forall i | 0 <= i < |SectionOrder|
      ensures AllStyledBy((sec => SectionOps(st, rec, sec))(SectionOrder[i]), st)
    {
      SectionLayout(st, rec, SectionOrder[i]);
    }
    EmitEachAll(SectionOrder, sec => SectionOps(st, rec, sec), op => StyledBy(op, st));
    HeaderLayout(st, rec);
    AllStyledConcat(HeaderOps(st, rec), BodyOps(st, rec), st);
    assert AllStyledBy(SetupOps(g), st);
    AllStyledConcat(SetupOps(g), CreateCV(st, rec), st);
  }

  /**
   * The duration cell is the duration and a space, followed by "(Present)"
   * for a current job (`isCurrentlyWorking == 1`) and by nothing otherwise.
   */
  lemma DurationMarksPresent(e: Experience)
    ensures HasPrefix(DurationText(e), Field(e.duration) + " ")
    ensures HasSuffix(DurationText(e), "(Present)") <==> EqualsOne(e.isCurrentlyWorking)
    ensures |DurationText(e)| == |Field(e.duration)| + 1 + (if EqualsOne(e.isCurrentlyWorking) then |"(Present)"| else 0)
  {
    var d := DurationText(e);
    if !EqualsOne(e.isCurrentlyWorking) {
      assert d[|d| - 1] == ' ';
    }
  }

  /**
   * The experience section's right-aligned cells are one duration per
   * entry, in order, and entry `i`'s ends in "(Present)" exactly when that
   * job is current.
   */
  lemma ExperienceDurations(st: Style, rec: CVRecord)
    requires HasItems(rec.experience)
    ensures var es := rec.experience.value;
      var texts := TextsWhere(SectionOps(st, rec, ExperienceSection), IsRightCell);
      && |texts| == |es|
      && forall i :: 0 <= i < |es| ==>
           && texts[i] == DurationText(es[i])
           && (HasSuffix(texts[i], "(Present)") <==> EqualsOne(es[i].isCurrentlyWorking))
  {
    var es := rec.experience.value;
    var f := e => ExperienceEntryOps(st, e);
    forall i | 0 <= i < |es| ensures TextsWhere(f(es[i]), IsRightCell) == [DurationText(es[i])] {
      ExperienceEntryLayout(st, es[i]);
    }
    EmitEachOneText(es, f, IsRightCell, DurationText);
    SectionHeaderLayout(st, Title(ExperienceSection));
    TextsWhereConcat(SectionHeaderOps(st, Title(ExperienceSection)), EmitEach(es, f), IsRightCell);
    forall i | 0 <= i < |es|
      ensures HasSuffix(DurationText(es[i]), "(Present)") <==> EqualsOne(es[i].isCurrentlyWorking)
    {
      DurationMarksPresent(es[i]);
    }
  }

  /**
   * A certificate year given as the integer n or as the text of n draws the
   * very same calls, and the year cell's text reads back as n.
   */
  lemma CertificateYearAsText(st: Style, c: Certificate, n: int)
    ensures CertificateEntryOps(st, c.(year := Some(VInt(n))))
            == CertificateEntryOps(st, c.(year := Some(VText(IntToDecimal(n)))))
    ensures var texts := TextsWhere(CertificateEntryOps(st, c.(year := Some(VInt(n)))), IsRightCell);
      |texts| == 1 && IsDecimal(texts[0]) && DecimalToInt(texts[0]) == n
  {
    CertificateEntryLayout(st, c.(year := Some(VInt(n))));
  }

  /**
   * A graduation year given as the integer n or as the text of n draws the
   * very same calls, and the year cell's text reads back as n.
   */
  lemma GradYearAsText(st: Style, e: Education, n: int)
    ensures EducationEntryOps(st, e.(gradYear := Some(VInt(n))))
            == EducationEntryOps(st, e.(gradYear := Some(VText(IntToDecimal(n)))))
    ensures var texts := TextsWhere(EducationEntryOps(st, e.(gradYear := Some(VInt(n)))), IsRightCell);
      |texts| == 1 && IsDecimal(texts[0]) && DecimalToInt(texts[0]) == n
  {
    EducationEntryLayout(st, e.(gradYear := Some(VInt(n))));
  }

  /**
   * The skills listed keep the entries' order and multiplicity: splitting the
   * entries anywhere splits the listing at the same place, and a single entry
   * contributes its name exactly when that name is non-empty.
   */
  lemma {:induction false} SkillNamesFilter(a: seq<Skill>, s: Skill, b: seq<Skill>)
    ensures SkillNames(a + [s] + b)
         == SkillNames(a) + (if HasText(s.name) then [s.name.value] else []) + SkillNames(b)
  {
    if a == [] {
      assert a + [s] + b == [s] + b;
      assert ([s] + b)[1..] == b;
    } else {
      assert (a + [s] + b)[0] == a[0];
      assert (a + [s] + b)[1..] == a[1..] + [s] + b;
      SkillNamesFilter(a[1..], s, b);
    }
  }

  /** The same for the languages listed, each rendered as `name (level)`. */
  lemma {:induction false} LanguageTextsFilter(a: seq<Language>, l: Language, b: seq<Language>)
    ensures LanguageTexts(a + [l] + b)
         == LanguageTexts(a) + (if HasText(l.name) then [LanguageText(l)] else []) + LanguageTexts(b)
  {
    if a == [] {
      assert a + [l] + b == [l] + b;
      assert ([l] + b)[1..] == b;
    } else {
      var x := a + [l] + b;
      var m := if HasText(l.name) then [LanguageText(l)] else [];
      var first := if HasText(a[0].name) then [LanguageText(a[0])] else [];
      assert x[0] == a[0];
      assert x[1..] == a[1..] + [l] + b;
      LanguageTextsFilter(a[1..], l, b);
      assert LanguageTexts(x) == first + LanguageTexts(a[1..]) + m + LanguageTexts(b);
      assert LanguageTexts(a) == first + LanguageTexts(a[1..]);
    }
  }

  /** The text blocks of the skills and languages body alone. */
  lemma SkillsBodyBlocks(st: Style, rec: CVRecord)
    requires Present(rec, SkillsSection)
    ensures TextsWhere(SectionBody(st, rec, SkillsSection), IsBlock)
         == (if HasItems(rec.skills) then [SkillsLine(rec.skills.value)] else [])
            + (if HasItems(rec.languages) then [LanguagesLine(rec.languages.value)] else [])
  {
    var a := [SetFont(st.font, "", 10)];
    var b := if HasItems(rec.skills) then [MultiCell(FullWidth, 6, SkillsLine(rec.skills.value))] else [];
    var c := if HasItems(rec.languages) then [MultiCell(FullWidth, 6, LanguagesLine(rec.languages.value))] else [];
    var d := [Ln(4)];
    assert SectionBody(st, rec, SkillsSection) == a + b + c + d;
    TextsWhereConcat(a + b + c, d, IsBlock);
    TextsWhereConcat(a + b, c, IsBlock);
    TextsWhereConcat(a, b, IsBlock);
  }

  /**
   * The Skills & Languages section draws its banner when skills or languages
   * are non-empty; its text blocks are a "Skills: " line when skills are
   * non-empty and a "Languages: " line when languages are non-empty, each
   * listing, joined by ", ", only the entries whose name is non-empty.
   */
  lemma SkillsAndLanguagesLines(st: Style, rec: CVRecord)
    ensures var ops := SectionOps(st, rec, SkillsSection);
      && (ops != [] <==> HasItems(rec.skills) || HasItems(rec.languages))
      && TextsWhere(ops, IsBlock)
         == (if HasItems(rec.skills) then ["Skills: " + Join(SkillNames(rec.skills.value), ", ")] else [])
            + (if HasItems(rec.languages) then ["Languages: " + Join(LanguageTexts(rec.languages.value), ", ")] else [])
  {
    SectionLayout(st, rec, SkillsSection);
    if Present(rec, SkillsSection) {
      var head := SectionHeaderOps(st, Title(SkillsSection));
      var body := SectionBody(st, rec, SkillsSection);
      TextsWhereNone(head, IsBlock);
      SkillsBodyBlocks(st, rec);
      TextsWhereConcat(head, body, IsBlock);
    }
  }

  /** Each banner cell is directly followed by a 2-unit break and a reset to black text. */
  predicate ResetAfterHeadings(ops: seq<DrawOp>)
  {
    forall i :: 0 <= i < |ops| && IsHeadingCell(ops[i]) ==>
      i + 2 < |ops| && ops[i + 1] == Ln(2) && ops[i + 2] == SetTextColour(Black)
  }

  predicate NoHeadingCell(ops: seq<DrawOp>)
  {
    forall i :: 0 <= i < |ops| ==> !IsHeadingCell(ops[i])
  }

  lemma ResetConcat(a: seq<DrawOp>, b: seq<DrawOp>)
    requires ResetAfterHeadings(a) && ResetAfterHeadings(b)
    ensures ResetAfterHeadings(a + b)
  {
    forall i | 0 <= i < |a + b| && IsHeadingCell((a + b)[i])
      ensures i + 2 < |a + b| && (a + b)[i + 1] == Ln(2) && (a + b)[i + 2] == SetTextColour(Black)
    {
      if i >= |a| {
        assert (a + b)[i] == b[i - |a|];
        assert (a + b)[i + 1] == b[i - |a| + 1];
        assert (a + b)[i + 2] == b[i - |a| + 2];
      }
    }
  }

  lemma BodyHasNoHeading(st: Style, rec: CVRecord, sec: Section)
    requires Present(rec, sec)
    ensures NoHeadingCell(SectionBody(st, rec, sec))
  {
    var p := op => !IsHeadingCell(op);
    match sec
    case SummarySection =>
    case ExperienceSection => EmitEachAll(rec.experience.value, e => ExperienceEntryOps(st, e), p);
    case EducationSection => EmitEachAll(rec.education.value, e => EducationEntryOps(st, e), p);
    case CertificatesSection => EmitEachAll(rec.certificates.value, c => CertificateEntryOps(st, c), p);
    case SkillsSection =>
    case ReferencesSection => EmitEachAll(rec.userReferences.value, r => ReferenceEntryOps(st, r), p);
  }

  lemma SectionResets(st: Style, rec: CVRecord, sec: Section)
    ensures ResetAfterHeadings(SectionOps(st, rec, sec))
  {
    if Present(rec, sec) {
      var head := SectionHeaderOps(st, Title(sec));
      var body := SectionBody(st, rec, sec);
      BodyHasNoHeading(st, rec, sec);
      assert ResetAfterHeadings(body);
      ResetConcat(head, body);
    }
  }

  lemma {:induction false} ResetsAmong(st: Style, rec: CVRecord, order: seq<Section>)
    ensures ResetAfterHeadings(EmitEach(order, sec => SectionOps(st, rec, sec)))
  {
    if order != [] {
      var f := sec => SectionOps(st, rec, sec);
      ResetsAmong(st, rec, order[1..]);
      SectionResets(st, rec, order[0]);
      ResetConcat(f(order[0]), EmitEach(order[1..], f));
    }
  }

  /**
   * Anywhere in the document, a section banner is followed at once by a
   * 2-unit line break and a switch back to black text, so no body text is
   * drawn in the banner colour.
   */
  lemma HeadingsResetTextColour(st: Style, rec: CVRecord)
    ensures ResetAfterHeadings(CreateCV(st, rec))
  {
    assert ResetAfterHeadings(HeaderOps(st, rec));
    ResetsAmong(st, rec, SectionOrder);
    ResetConcat(HeaderOps(st, rec), BodyOps(st, rec));
  }
}

=== FILE: draw.dfy ===
/**
 * The abstract drawing interface: each `DrawOp` stands for one call the CV
 * generator makes on its FPDF canvas. What FPDF does with a call (glyph
 * metrics, wrapping, page breaks, output bytes) is not modelled; the order
 * and arguments of the calls are.
 */
module Draw {

  type Channel = x: int | 0 <= x <= 255

  datatype Colour = Colour(red: Channel, green: Channel, blue: Channel)

  const Black := Colour(0, 0, 0)
  const White := Colour(255, 255, 255)

  /** `align=` of a cell: FPDF's default "" (left), "C" or "R". */
  datatype Align = Left | Centre | Right

  datatype DrawOp =
    | SetMargins(left: int, top: int, right: int)
    | SetAutoPageBreak(auto: bool, margin: int)
    | AddPage
    | SetFont(family: string, style: string, size: int)
    | SetFillColour(colour: Colour)
    | SetTextColour(colour: Colour)
    | Rect(x: int, y: int, w: int, h: int, filled: bool)
    | Cell(w: int, h: int, txt: string, newline: bool, align: Align, fill: bool)
    | MultiCell(w: int, h: int, txt: string)
    | Ln(h: int)

  predicate IsTextOp(op: DrawOp) { op.Cell? || op.MultiCell? }

  /** The texts of the text-drawing ops that satisfy `keep`, in order. */
  function TextsWhere(ops: seq<DrawOp>, keep: DrawOp -> bool): (r: seq<string>)
    ensures |r| <= |ops|
  {
    if |ops| == 0 then []
    else (if IsTextOp(ops[0]) && keep(ops[0]) then [ops[0].txt] else []) + TextsWhere(ops[1..], keep)
  }

  lemma {:induction false} TextsWhereConcat(a: seq<DrawOp>, b: seq<DrawOp>, keep: DrawOp -> bool)
    ensures TextsWhere(a + b, keep) == TextsWhere(a, keep) + TextsWhere(b, keep)
  {
    if a != [] {
      TextsWhereConcat(a[1..], b, keep);
      assert (a + b)[0] == a[0];
      assert (a + b)[1..] == a[1..] + b;
    } else {
      assert a + b == b;
    }
  }

  /** No op is a kept text op, so nothing is selected. */
  lemma {:induction false} TextsWhereNone(ops: seq<DrawOp>, keep: DrawOp -> bool)
    requires forall i :: 0 <= i < |ops| ==> !(IsTextOp(ops[i]) && keep(ops[i]))
    ensures TextsWhere(ops, keep) == []
  {
    if |ops| > 0 {
      TextsWhereNone(ops[1..], keep);
    }
  }

  /** Exactly one op, the one at `k`, is a kept text op. */
  lemma {:induction false} TextsWhereSingle(ops: seq<DrawOp>, keep: DrawOp -> bool, k: nat)
    requires k < |ops| && IsTextOp(ops[k]) && keep(ops[k])
    requires forall i :: 0 <= i < |ops| && i != k ==> !(IsTextOp(ops[i]) && keep(ops[i]))
    ensures TextsWhere(ops, keep) == [ops[k].txt]
    decreases k
  {
    var rest := ops[1..];
    if k == 0 {
      assert forall i :: 0 <= i < |rest| ==> rest[i] == ops[i + 1];
      TextsWhereNone(rest, keep);
    } else {
      assert forall i :: 0 <= i < |rest| ==> rest[i] == ops[i + 1];
      TextsWhereSingle(rest, keep, k - 1);
    }
  }

  /** Exactly two ops, those at `k1` and `k2`, are kept text ops. */
  lemma {:induction false} TextsWherePair(ops: seq<DrawOp>, keep: DrawOp -> bool, k1: nat, k2: nat)
    requires k1 < k2 < |ops|
    requires IsTextOp(ops[k1]) && keep(ops[k1]) && IsTextOp(ops[k2]) && keep(ops[k2])
    requires forall i :: 0 <= i < |ops| && i != k1 && i != k2 ==> !(IsTextOp(ops[i]) && keep(ops[i]))
    ensures TextsWhere(ops, keep) == [ops[k1].txt, ops[k2].txt]
    decreases k1
  {
    var rest := ops[1..];
    assert forall i :: 0 <= i < |rest| ==> rest[i] == ops[i + 1];
    if k1 == 0 {
      TextsWhereSingle(rest, keep, k2 - 1);
    } else {
      TextsWherePair(rest, keep, k1 - 1, k2 - 1);
    }
  }

  /**
   * Progress through a stream of ops, line by line, checking that every line
   * is exactly `width` wide: `fits` says every completed line so far was,
   * `filled` is the width taken on the open line and `cells` how many cells
   * it holds.
   */
  datatype Lines = Lines(fits: bool, filled: int, cells: nat)

  const Fresh := Lines(true, 0, 0)

  /** Closes the open line, if it holds any cell. */
  function CloseLine(ls: Lines, width: int): (r: Lines)
    ensures r.cells == 0 && r.filled == 0
  {
    if ls.cells == 0 then Lines(ls.fits, 0, 0) else Lines(ls.fits && ls.filled == width, 0, 0)
  }

  /**
   * The effect of one op on the lines: a cell joins the open line and, with
   * `newline` set, closes it; a multi-cell is a block on a line of its own;
   * `Ln` closes the open line; every other op leaves the lines alone.
   */
  function Step(ls: Lines, op: DrawOp, width: int): Lines
  {
    match op
    case Cell(w, _, _, newline, _, _) =>
      var grown := Lines(ls.fits, ls.filled + w, ls.cells + 1);
      if newline then CloseLine(grown, width) else grown
    case MultiCell(w, _, _) => CloseLine(Lines(CloseLine(ls, width).fits, w, 1), width)
    case Ln(_) => CloseLine(ls, width)
    case _ => ls
  }

  function RunLines(ops: seq<DrawOp>, ls: Lines, width: int): Lines
  {
    if |ops| == 0 then ls else RunLines(ops[1..], Step(ls, ops[0], width), width)
  }

  lemma {:induction false} RunLinesConcat(a: seq<DrawOp>, b: seq<DrawOp>, ls: Lines, width: int)
    ensures RunLines(a + b, ls, width) == RunLines(b, RunLines(a, ls, width), width)
  {
    if |a| == 0 {
      assert a + b == b;
    } else {
      assert (a + b)[0] == a[0];
      assert (a + b)[1..] == a[1..] + b;
      RunLinesConcat(a[1..], b, Step(ls, a[0], width), width);
    }
  }

  /**
   * Starting at the left margin, every line the ops draw is exactly `width`
   * wide, and no line is left open at the end.
   */
  predicate LinesFit(ops: seq<DrawOp>, width: int)
  {
    RunLines(ops, Fresh, width) == Fresh
  }

  lemma LinesFitConcat(a: seq<DrawOp>, b: seq<DrawOp>, width: int)
    requires LinesFit(a, width) && LinesFit(b, width)
    ensures LinesFit(a + b, width)
  {
    RunLinesConcat(a, b, Fresh, width);
  }

  /** `for x in xs: <emit f(x)>`: the ops of every element, in order. */
  function EmitEach<T>(xs: seq<T>, f: T -> seq<DrawOp>): (ops: seq<DrawOp>)
    ensures xs == [] ==> ops == []
  {
    if xs == [] then [] else f(xs[0]) + EmitEach(xs[1..], f)
  }

  lemma {:induction false} EmitEachLinesFit<T>(xs: seq<T>, f: T -> seq<DrawOp>, width: int)
    requires forall i :: 0 <= i < |xs| ==> LinesFit(f(xs[i]), width)
    ensures LinesFit(EmitEach(xs, f), width)
  {
    if xs != [] {
      EmitEachLinesFit(xs[1..], f, width);
      LinesFitConcat(f(xs[0]), EmitEach(xs[1..], f), width);
    }
  }

  lemma {:induction false} EmitEachEmpty<T>(xs: seq<T>, f: T -> seq<DrawOp>)
    requires forall i :: 0 <= i < |xs| ==> f(xs[i]) == []
    ensures EmitEach(xs, f) == []
  {
    if xs != [] {
      EmitEachEmpty(xs[1..], f);
    }
  }

  lemma {:induction false} EmitEachNoTexts<T>(xs: seq<T>, f: T -> seq<DrawOp>, keep: DrawOp -> bool)
    requires forall i :: 0 <= i < |xs| ==> TextsWhere(f(xs[i]), keep) == []
    ensures TextsWhere(EmitEach(xs, f), keep) == []
  {
    if xs != [] {
      EmitEachNoTexts(xs[1..], f, keep);
      TextsWhereConcat(f(xs[0]), EmitEach(xs[1..], f), keep);
    }
  }

  /** When each element yields exactly one kept text, the kept texts are one per element. */
  lemma {:induction false} EmitEachOneText<T>(xs: seq<T>, f: T -> seq<DrawOp>, keep: DrawOp -> bool, g: T -> string)
    requires forall i :: 0 <= i < |xs| ==> TextsWhere(f(xs[i]), keep) == [g(xs[i])]
    ensures |TextsWhere(EmitEach(xs, f), keep)| == |xs|
    ensures forall i :: 0 <= i < |xs| ==> TextsWhere(EmitEach(xs, f), keep)[i] == g(xs[i])
  {
    if xs != [] {
      EmitEachOneText(xs[1..], f, keep, g);
      TextsWhereConcat(f(xs[0]), EmitEach(xs[1..], f), keep);
    }
  }

  /** Every op of every element satisfies `p`, so every emitted op does. */
  lemma {:induction false} EmitEachAll<T>(xs: seq<T>, f: T -> seq<DrawOp>, p: DrawOp -> bool)
    requires forall i, j :: 0 <= i < |xs| && 0 <= j < |f(xs[i])| ==> p(f(xs[i])[j])
    ensures forall j :: 0 <= j < |EmitEach(xs, f)| ==> p(EmitEach(xs, f)[j])
  {
    if xs != [] {
      EmitEachAll(xs[1..], f, p);
      var head := f(xs[0]);
      var tail := EmitEach(xs[1..], f);
      assert EmitEach(xs, f) == head + tail;
      forall j | 0 <= j < |head + tail| ensures p((head + tail)[j]) {
        if j < |head| { assert p(f(xs[0])[j]); } else { assert (head + tail)[j] == tail[j - |head|]; }
      }
    }
  }
}

=== FILE: entries.dfy ===
/**
 * Facts about the fixed blocks of calls: the section banner, the header band
 * and the per-entry blocks of each section. Each block draws only full-width
 * lines, uses only the design's font and colours, and carries the texts
 * listed here in its banner, right-aligned and block cells.
 */
module EntryLayout {
  import opened Wrappers
  import opened Text
  import opened Draw
  import opened Styles
  import opened Record
  import opened Layout

  /** Every op of the block is styled by the design. */
  predicate AllStyledBy(ops: seq<DrawOp>, st: Style)
  {
    forall i :: 0 <= i < |ops| ==> StyledBy(ops[i], st)
  }

  lemma AllStyledConcat(a: seq<DrawOp>, b: seq<DrawOp>, st: Style)
    requires AllStyledBy(a, st) && AllStyledBy(b, st)
    ensures AllStyledBy(a + b, st)
  {
    forall i | 0 <= i < |a + b| ensures StyledBy((a + b)[i], st) {
      if i >= |a| { assert (a + b)[i] == b[i - |a|]; }
    }
  }

  /**
   * `add_section_header`: a single banner cell reading two spaces and the
   * upper-cased title, drawn on the secondary fill in the primary text
   * colour, on a full line, after which the text is black again.
   */
  lemma SectionHeaderLayout(st: Style, title: string)
    ensures var ops := SectionHeaderOps(st, title);
      && TextsWhere(ops, IsHeadingCell) == ["  " + Upper(title)]
      && TextsWhere(ops, IsRightCell) == []
      && LinesFit(ops, FullWidth)
      && AllStyledBy(ops, st)
      && ops[1] == SetFillColour(st.secondary) && ops[2] == SetTextColour(st.primary)
      && ops[3] == Cell(FullWidth, 8, "  " + Upper(title), true, Left, true)
      && ops[|ops| - 1] == SetTextColour(Black)
  {
    var ops := SectionHeaderOps(st, title);
    TextsWhereSingle(ops, IsHeadingCell, 3);
    TextsWhereNone(ops, IsRightCell);
    assert RunLines(ops[5..], Fresh, FullWidth) == Fresh;
    assert RunLines(ops[3..], Fresh, FullWidth) == Fresh;
    assert RunLines(ops[1..], Fresh, FullWidth) == Fresh;
  }

  lemma HeaderLinesFit(st: Style, rec: CVRecord)
    ensures LinesFit(HeaderOps(st, rec), FullWidth)
  {
    var ops := HeaderOps(st, rec);
    assert RunLines(ops[10..], Fresh, FullWidth) == Fresh;
    assert RunLines(ops[8..], Fresh, FullWidth) == Fresh;
    assert RunLines(ops[6..], Fresh, FullWidth) == Fresh;
    assert RunLines(ops[4..], Fresh, FullWidth) == Fresh;
    assert RunLines(ops[2..], Fresh, FullWidth) == Fresh;
  }

  /** The header band holds no banner or right-aligned cell and only full lines. */
  lemma HeaderLayout(st: Style, rec: CVRecord)
    ensures var ops := HeaderOps(st, rec);
      && TextsWhere(ops, IsHeadingCell) == []
      && TextsWhere(ops, IsRightCell) == []
      && LinesFit(ops, FullWidth)
      && AllStyledBy(ops, st)
  {
    var ops := HeaderOps(st, rec);
    TextsWhereNone(ops, IsHeadingCell);
    TextsWhereNone(ops, IsRightCell);
    HeaderLinesFit(st, rec);
  }

  /**
   * One experience entry: a 120-wide title cell (job title and company
   * joined by " - ") and a 60-wide right-aligned duration cell share a full
   * line; the only right-aligned text is the duration.
   */
  lemma ExperienceEntryLayout(st: Style, e: Experience)
    ensures var ops := ExperienceEntryOps(st, e);
      && TextsWhere(ops, IsHeadingCell) == []
      && TextsWhere(ops, IsRightCell) == [DurationText(e)]
      && ops[1] == Cell(120, 6, Join([Field(e.jobTitle), Field(e.companyName)], " - "), false, Left, false)
      && ops[3] == Cell(60, 6, DurationText(e), true, Right, false)
      && TextsWhere(ops, IsBlock) == [Field(e.achievements)]
      && ops[4] == MultiCell(FullWidth, 5, Field(e.achievements))
      && LinesFit(ops, FullWidth)
      && AllStyledBy(ops, st)
  {
    var ops := ExperienceEntryOps(st, e);
    var title := [Field(e.jobTitle), Field(e.companyName)];
    assert title[1..] == [Field(e.companyName)];
    TextsWhereNone(ops, IsHeadingCell);
    TextsWhereSingle(ops, IsRightCell, 3);
    TextsWhereSingle(ops, IsBlock, 4);
    assert RunLines(ops[5..], Fresh, FullWidth) == Fresh;
    assert RunLines(ops[3..], Lines(true, 120, 1), FullWidth) == Fresh;
    assert RunLines(ops[1..], Fresh, FullWidth) == Fresh;
  }


  lemma EducationLinesFit(st: Style, e: Education)
    ensures LinesFit(EducationEntryOps(st, e), FullWidth)
  {
    var ops := EducationEntryOps(st, e);
    var first := ops[..5];
    var project := ops[5..|ops| - 1];
    var last := [Ln(2)];
    assert ops == first + project + last;
    assert RunLines(first[4..], Fresh, FullWidth) == Fresh;
    assert RunLines(first[2..], Lines(true, 120, 1), FullWidth) == Fresh;
    assert LinesFit(first, FullWidth);
    if HasText(e.project) {
      assert RunLines(project[1..], Fresh, FullWidth) == Fresh;
    }
    assert LinesFit(project, FullWidth);
    assert LinesFit(last, FullWidth);
    LinesFitConcat(first, project, FullWidth);
    LinesFitConcat(first + project, last, FullWidth);
  }

  lemma EducationTexts(st: Style, e: Education)
    ensures var ops := EducationEntryOps(st, e);
      && TextsWhere(ops, IsHeadingCell) == []
      && TextsWhere(ops, IsRightCell) == [StrField(e.gradYear)]
  {
    var ops := EducationEntryOps(st, e);
    TextsWhereNone(ops, IsHeadingCell);
    TextsWhereSingle(ops, IsRightCell, 3);
  }

  lemma EducationProjectText(st: Style, e: Education)
    ensures TextsWhere(EducationEntryOps(st, e), IsBlock)
         == (if HasText(e.project) then ["Project: " + e.project.value] else [])
  {
    var ops := EducationEntryOps(st, e);
    if HasText(e.project) {
      TextsWhereSingle(ops, IsBlock, 6);
    } else {
      TextsWhereNone(ops, IsBlock);
    }
  }

  lemma EducationLeftTexts(st: Style, e: Education)
    ensures TextsWhere(EducationEntryOps(st, e), IsLeftCell) == [EducationTitle(e), SchoolLine(e)]
  {
    var ops := EducationEntryOps(st, e);
    var head, tail := ops[..5], ops[5..];
    assert ops == head + tail;
    TextsWherePair(head, IsLeftCell, 1, 4);
    TextsWhereNone(tail, IsLeftCell);
    TextsWhereConcat(head, tail, IsLeftCell);
  }

  lemma EducationCells(st: Style, e: Education)
    ensures var ops := EducationEntryOps(st, e);
      && |ops| >= 5
      && ops[1] == Cell(120, 6, EducationTitle(e), false, Left, false)
      && ops[3] == Cell(60, 6, StrField(e.gradYear), true, Right, false)
      && ops[4] == Cell(FullWidth, 5, SchoolLine(e), true, Left, false)
      && AllStyledBy(ops, st)
  {
  }

  /**
   * One education entry: "degree in field" (120) and the graduation year
   * (60) share a full line, "school | CGPA: cgpa" fills the next one, the
   * year is its only right-aligned text, and its only block of text is the
   * "Project: " line, present exactly when the project is non-empty.
   */
  lemma EducationEntryLayout(st: Style, e: Education)
    ensures var ops := EducationEntryOps(st, e);
      && TextsWhere(ops, IsHeadingCell) == []
      && TextsWhere(ops, IsRightCell) == [StrField(e.gradYear)]
      && TextsWhere(ops, IsBlock) == (if HasText(e.project) then ["Project: " + e.project.value] else [])
      && TextsWhere(ops, IsLeftCell)
         == [Field(e.degree) + " in " + Field(e.field), Field(e.school) + " | CGPA: " + StrField(e.cgpa)]
      && ops[1] == Cell(120, 6, Field(e.degree) + " in " + Field(e.field), false, Left, false)
      && ops[3] == Cell(60, 6, StrField(e.gradYear), true, Right, false)
      && ops[4] == Cell(FullWidth, 5, Field(e.school) + " | CGPA: " + StrField(e.cgpa), true, Left, false)
      && LinesFit(ops, FullWidth)
      && AllStyledBy(ops, st)
  {
    EducationTexts(st, e);
    EducationProjectText(st, e);
    EducationLeftTexts(st, e);
    EducationLinesFit(st, e);
    EducationCells(st, e);
  }

  lemma CertificateLinesFit(st: Style, c: Certificate)
    ensures LinesFit(CertificateEntryOps(st, c), FullWidth)
  {
    var ops := CertificateEntryOps(st, c);
    assert RunLines(ops[5..], Fresh, FullWidth) == Fresh;
    assert RunLines(ops[3..], Lines(true, 140, 1), FullWidth) == Fresh;
    assert RunLines(ops[1..], Fresh, FullWidth) == Fresh;
  }

  /** One certificate: name (140) and year (40) share a full line, then the organisation on a full line. */
  lemma CertificateEntryLayout(st: Style, c: Certificate)
    ensures var ops := CertificateEntryOps(st, c);
      && TextsWhere(ops, IsHeadingCell) == []
      && TextsWhere(ops, IsRightCell) == [StrField(c.year)]
      && TextsWhere(ops, IsLeftCell) == [Field(c.certName), Field(c.organization)]
      && ops[1] == Cell(140, 5, Field(c.certName), false, Left, false)
      && ops[3] == Cell(40, 5, StrField(c.year), true, Right, false)
      && ops[4] == Cell(FullWidth, 5, Field(c.organization), true, Left, false)
      && LinesFit(ops, FullWidth)
      && AllStyledBy(ops, st)
  {
    var ops := CertificateEntryOps(st, c);
    TextsWhereNone(ops, IsHeadingCell);
    TextsWhereSingle(ops, IsRightCell, 3);
    TextsWherePair(ops, IsLeftCell, 1, 4);
    CertificateLinesFit(st, c);
  }

  lemma ReferenceLinesFit(st: Style, r: Reference)
    ensures LinesFit(ReferenceEntryOps(st, r), FullWidth)
  {
    var ops := ReferenceEntryOps(st, r);
    assert RunLines(ops[4..], Fresh, FullWidth) == Fresh;
    assert RunLines(ops[2..], Fresh, FullWidth) == Fresh;
  }

  /** One reference: name on a full line, then the "job at organisation | phone" block. */
  lemma ReferenceEntryLayout(st: Style, r: Reference)
    ensures var ops := ReferenceEntryOps(st, r);
      && TextsWhere(ops, IsHeadingCell) == []
      && TextsWhere(ops, IsRightCell) == []
      && TextsWhere(ops, IsLeftCell) == [Field(r.name)]
      && ops[1] == Cell(FullWidth, 5, Field(r.name), true, Left, false)
      && TextsWhere(ops, IsBlock) == [ReferenceLine(r)]
      && LinesFit(ops, FullWidth)
      && AllStyledBy(ops, st)
  {
    var ops := ReferenceEntryOps(st, r);
    TextsWhereNone(ops, IsHeadingCell);
    TextsWhereNone(ops, IsRightCell);
    TextsWhereSingle(ops, IsLeftCell, 1);
    TextsWhereSingle(ops, IsBlock, 3);
    ReferenceLinesFit(st, r);
  }
}

=== FILE: layout.dfy ===
/**
 * `CVGenerator`: the design resolved at construction, the section banner, and
 * `create_cv`, which lays a CV record out as a sequence of drawing calls: the
 * coloured header band first, then up to six body sections in a fixed order,
 * each emitted only when its data is present.
 */
module Layout {
  import opened Wrappers
  import opened Text
  import opened Draw
  import opened Styles
  import opened Record

  /** Width of the A4 page in millimetres (the header band spans it). */
  const PageWidth := 210
  const PageMargin := 15
  /** The width every full-line cell is given. */
  const FullWidth := 180
  const BannerHeight := 50

  datatype CVGenerator = CVGenerator(
    style: Style,
    leftMargin: int,
    topMargin: int,
    rightMargin: int,
    autoPageBreak: bool,
    breakMargin: int)

  /** `CVGenerator(design)`: the design's style and 15 mm margins on every side. */
  function NewGenerator(design: string): (g: CVGenerator)
    ensures g.style == LookupStyle(design)
    ensures PageWidth - g.leftMargin - g.rightMargin == FullWidth
    ensures g.leftMargin == g.rightMargin == g.topMargin == PageMargin
    ensures g.autoPageBreak && g.breakMargin == PageMargin
  {
    CVGenerator(LookupStyle(design), PageMargin, PageMargin, PageMargin, true, PageMargin)
  }

  /** The canvas calls made by the constructor, ending with the first page. */
  function SetupOps(g: CVGenerator): seq<DrawOp>
  {
    [SetMargins(g.leftMargin, g.topMargin, g.rightMargin),
     SetAutoPageBreak(g.autoPageBreak, g.breakMargin),
     AddPage]
  }

  predicate IsHeadingCell(op: DrawOp) { op.Cell? && op.fill }

  predicate IsRightCell(op: DrawOp) { op.Cell? && op.align == Right }

  predicate IsBlock(op: DrawOp) { op.MultiCell? }

  predicate IsLeftCell(op: DrawOp) { op.Cell? && op.align == Left && !op.fill }

  /** Every font and colour an op sets comes from the design (or is black or white text). */
  predicate StyledBy(op: DrawOp, st: Style)
  {
    && (op.SetFont? ==> op.family == st.font)
    && (op.SetFillColour? ==> op.colour == st.primary || op.colour == st.secondary)
    && (op.SetTextColour? ==> op.colour == st.primary || op.colour == White || op.colour == Black)
  }

  // ---------------------------------------------------------------------------
  // Text composition

  /** `f"{firstName} {lastName}"` with missing keys read as "". */
  function FullName(rec: CVRecord): string
  {
    Field(rec.firstName) + " " + Field(rec.lastName)
  }

  /** `f"{email} | {phone} | {address}"`. */
  function ContactLine(rec: CVRecord): string
  {
    Field(rec.email) + " | " + Field(rec.phone) + " | " + Field(rec.address)
  }

  function ExperienceTitle(e: Experience): string
  {
    Field(e.jobTitle) + " - " + Field(e.companyName)
  }

  /** `f"{duration} {curr}"`, `curr` being "(Present)" for a current job and "" otherwise. */
  function DurationText(e: Experience): string
  {
    Field(e.duration) + " " + (if EqualsOne(e.isCurrentlyWorking) then "(Present)" else "")
  }

  function EducationTitle(e: Education): string
  {
    Field(e.degree) + " in " + Field(e.field)
  }

  function SchoolLine(e: Education): string
  {
    Field(e.school) + " | CGPA: " + StrField(e.cgpa)
  }

  function ReferenceLine(r: Reference): string
  {
    Field(r.job) + " at " + Field(r.organization) + " | " + Field(r.phone)
  }

  /** The names of the skills whose `name` is truthy, in order. */
  function SkillNames(skills: seq<Skill>): (names: seq<string>)
    ensures |names| <= |skills|
    ensures forall n :: n in names ==> n != ""
    ensures forall n :: n in names <==> exists i :: 0 <= i < |skills| && skills[i].name == Some(n) && n != ""
  {
    if skills == [] then []
    else
      (if HasText(skills[0].name) then [skills[0].name.value] else []) + SkillNames(skills[1..])
  }

  /** `f"{name} ({level})"` for a language. */
  function LanguageText(l: Language): string
    requires l.name.Some?
  {
    l.name.value + " (" + Field(l.level) + ")"
  }

  /** The rendered languages whose `name` is truthy, in order. */
  function LanguageTexts(langs: seq<Language>): (texts: seq<string>)
    ensures |texts| <= |langs|
    ensures forall t :: t in texts <==> exists i :: 0 <= i < |langs| && HasText(langs[i].name) && t == LanguageText(langs[i])
  {
    if langs == [] then []
    else
      (if HasText(langs[0].name) then [LanguageText(langs[0])] else []) + LanguageTexts(langs[1..])
  }

  function SkillsLine(skills: seq<Skill>): string
  {
    "Skills: " + Join(SkillNames(skills), ", ")
  }

  function LanguagesLine(langs: seq<Language>): string
  {
    "Languages: " + Join(LanguageTexts(langs), ", ")
  }

  // ---------------------------------------------------------------------------
  // Drawing

  /** `add_section_header(title)`: a filled full-width banner, then black text again. */
  function SectionHeaderOps(st: Style, title: string): seq<DrawOp>
  {
    [SetFont(st.font, "B", 12),
     SetFillColour(st.secondary),
     SetTextColour(st.primary),
     Cell(FullWidth, 8, "  " + Upper(title), true, Left, true),
     Ln(2),
     SetTextColour(Black)]
  }

  /** The header band: name, upper-cased job title and contact line in white on the primary colour. */
  function HeaderOps(st: Style, rec: CVRecord): seq<DrawOp>
  {
    [SetFillColour(st.primary),
     Rect(0, 0, PageWidth, BannerHeight, true),
     SetTextColour(White),
     SetFont(st.font, "B", 24),
     Cell(FullWidth, 15, FullName(rec), true, Centre, false),
     SetFont(st.font, "", 14),
     Cell(FullWidth, 7, Upper(Field(rec.jobTitle)), true, Centre, false),
     SetFont(st.font, "", 10),
     Cell(FullWidth, 6, ContactLine(rec), true, Centre, false),
     Ln(12),
     SetTextColour(Black)]
  }

  function ExperienceEntryOps(st: Style, e: Experience): seq<DrawOp>
  {
    [SetFont(st.font, "B", 11),
     Cell(120, 6, ExperienceTitle(e), false, Left, false),
     SetFont(st.font, "", 10),
     Cell(60, 6, DurationText(e), true, Right, false),
     MultiCell(FullWidth, 5, Field(e.achievements)),
     Ln(2)]
  }

  function EducationEntryOps(st: Style, e: Education): seq<DrawOp>
  {
    [SetFont(st.font, "B", 11),
     Cell(120, 6, EducationTitle(e), false, Left, false),
     SetFont(st.font, "", 10),
     Cell(60, 6, StrField(e.gradYear), true, Right, false),
     Cell(FullWidth, 5, SchoolLine(e), true, Left, false)]
    + (if HasText(e.project)
       then [SetFont(st.font, "I", 9), MultiCell(FullWidth, 5, "Project: " + e.project.value)]
       else [])
    + [Ln(2)]
  }

  function CertificateEntryOps(st: Style, c: Certificate): seq<DrawOp>
  {
    [SetFont(st.font, "B", 10),
     Cell(140, 5, Field(c.certName), false, Left, false),
     SetFont(st.font, "", 9),
     Cell(40, 5, StrField(c.year), true, Right, false),
     Cell(FullWidth, 5, Field(c.organization), true, Left, false),
     Ln(1)]
  }

  function ReferenceEntryOps(st: Style, r: Reference): seq<DrawOp>
  {
    [SetFont(st.font, "B", 10),
     Cell(FullWidth, 5, Field(r.name), true, Left, false),
     SetFont(st.font, "", 9),
     MultiCell(FullWidth, 5, ReferenceLine(r)),
     Ln(2)]
  }

  // ---------------------------------------------------------------------------
  // Sections

  datatype Section =
    | SummarySection
    | ExperienceSection
    | EducationSection
    | CertificatesSection
    | SkillsSection
    | ReferencesSection

  /** The order in which `create_cv` considers the sections. */
  const SectionOrder: seq<Section> :=
    [SummarySection, ExperienceSection, EducationSection,
     CertificatesSection, SkillsSection, ReferencesSection]

  function Title(sec: Section): string
  {
    match sec
    case SummarySection => "Professional Summary"
    case ExperienceSection => "Experience"
    case EducationSection => "Education"
    case CertificatesSection => "Certificates"
    case SkillsSection => "Skills & Languages"
    case ReferencesSection => "References"
  }

  /** The position of a section in `SectionOrder`. */
  function Rank(sec: Section): (k: nat)
    ensures k < |SectionOrder| && SectionOrder[k] == sec
  {
    match sec
    case SummarySection => 0
    case ExperienceSection => 1
    case EducationSection => 2
    case CertificatesSection => 3
    case SkillsSection => 4
    case ReferencesSection => 5
  }

  /** The text of a section's banner cell. */
  function HeadingText(sec: Section): string
  {
    "  " + Upper(Title(sec))
  }

  /** The truthiness test guarding each section. */
  predicate Present(rec: CVRecord, sec: Section)
  {
    match sec
    case SummarySection => HasText(rec.summary)
    case ExperienceSection => HasItems(rec.experience)
    case EducationSection => HasItems(rec.education)
    case CertificatesSection => HasItems(rec.certificates)
    case SkillsSection => HasItems(rec.skills) || HasItems(rec.languages)
    case ReferencesSection => HasItems(rec.userReferences)
  }

  /** What a present section draws below its banner. */
  function SectionBody(st: Style, rec: CVRecord, sec: Section): (ops: seq<DrawOp>)
    requires Present(rec, sec)
  {
    match sec
    case SummarySection =>
      [SetFont(st.font, "", 10), MultiCell(FullWidth, 6, rec.summary.value), Ln(4)]
    case ExperienceSection =>
      EmitEach(rec.experience.value, e => ExperienceEntryOps(st, e))
    case EducationSection =>
      EmitEach(rec.education.value, e => EducationEntryOps(st, e))
    case CertificatesSection =>
      EmitEach(rec.certificates.value, c => CertificateEntryOps(st, c))
    case SkillsSection =>
      [SetFont(st.font, "", 10)]
      + (if HasItems(rec.skills) then [MultiCell(FullWidth, 6, SkillsLine(rec.skills.value))] else [])
      + (if HasItems(rec.languages) then [MultiCell(FullWidth, 6, LanguagesLine(rec.languages.value))] else [])
      + [Ln(4)]
    case ReferencesSection =>
      EmitEach(rec.userReferences.value, r => ReferenceEntryOps(st, r))
  }

  /** One guarded block of `create_cv`: nothing at all when the guard fails. */
  function SectionOps(st: Style, rec: CVRecord, sec: Section): seq<DrawOp>
  {
    if Present(rec, sec) then SectionHeaderOps(st, Title(sec)) + SectionBody(st, rec, sec) else []
  }

  /** The calls that follow the header band: every section block, in `SectionOrder`. */
  function BodyOps(st: Style, rec: CVRecord): seq<DrawOp>
  {
    EmitEach(SectionOrder, sec => SectionOps(st, rec, sec))
  }

  /** `create_cv(data)`, without the final `output()`. */
  function CreateCV(st: Style, rec: CVRecord): seq<DrawOp>
  {
    HeaderOps(st, rec) + BodyOps(st, rec)
  }

  /** `CVGenerator(design).create_cv(data)`: the constructor's calls, then the layout. */
  function Document(design: string, rec: CVRecord): seq<DrawOp>
  {
    var g := NewGenerator(design);
    SetupOps(g) + CreateCV(g.style, rec)
  }
}

=== FILE: record.dfy ===
/**
 * The CV record handed to the generator: a JSON-like dictionary whose keys may
 * be missing (`None`). Text fields hold strings; the fields that the generator
 * passes through `str()` or compares with `== 1` may hold any scalar.
 */
module Record {
  import opened Wrappers
  import opened Text

  /** A JSON scalar as Python sees it after decoding. */
  datatype Value = VNull | VBool(b: bool) | VInt(i: int) | VText(s: string)

  /** Python's `str(v)`. */
  function Str(v: Value): (s: string)
    ensures v.VText? ==> s == v.s
    ensures v.VInt? ==> IsCanonicalDecimal(s) && IsDecimal(s) && DecimalToInt(s) == v.i
    ensures v.VNull? ==> s == "None"
    ensures v.VBool? ==> s == (if v.b then "True" else "False")
  {
    match v
    case VNull => "None"
    case VBool(b) => if b then "True" else "False"
    case VInt(i) => IntDecimalRoundTrip(i); IntToDecimal(i)
    case VText(t) => t
  }

  /** `str(d.get(key, ''))`. */
  function StrField(o: Option<Value>): (s: string)
    ensures o.None? ==> s == ""
  {
    Str(o.GetOr(VText("")))
  }

  /** Python's `d.get(key) == 1`: true for the integer 1 and for `True`. */
  predicate EqualsOne(o: Option<Value>)
  {
    o == Some(VInt(1)) || o == Some(VBool(true))
  }

  /** `d.get(key, '')` on a text field. */
  function Field(o: Option<string>): (s: string)
    ensures o.Some? ==> s == o.value
    ensures o.None? ==> s == ""
  {
    o.GetOr("")
  }

  /** Truthiness of `d.get(key)` for a text field: present and non-empty. */
  predicate HasText(o: Option<string>) { o.Some? && o.value != "" }

  /** Truthiness of `d.get(key)` for a list field: present and non-empty. */
  predicate HasItems<T>(o: Option<seq<T>>) { o.Some? && o.value != [] }

  datatype Experience = Experience(
    jobTitle: Option<string>,
    companyName: Option<string>,
    duration: Option<string>,
    achievements: Option<string>,
    isCurrentlyWorking: Option<Value>)

  datatype Education = Education(
    degree: Option<string>,
    field: Option<string>,
    school: Option<string>,
    gradYear: Option<Value>,
    cgpa: Option<Value>,
    project: Option<string>)

  datatype Certificate = Certificate(
    certName: Option<string>,
    organization: Option<string>,
    year: Option<Value>)

  datatype Skill = Skill(name: Option<string>)

  datatype Language = Language(name: Option<string>, level: Option<string>)

  datatype Reference = Reference(
    name: Option<string>,
    job: Option<string>,
    organization: Option<string>,
    phone: Option<string>)

  datatype CVRecord = CVRecord(
    firstName: Option<string>,
    lastName: Option<string>,
    jobTitle: Option<string>,
    email: Option<string>,
    phone: Option<string>,
    address: Option<string>,
    summary: Option<string>,
    experience: Option<seq<Experience>>,
    education: Option<seq<Education>>,
    certificates: Option<seq<Certificate>>,
    skills: Option<seq<Skill>>,
    languages: Option<seq<Language>>,
    userReferences: Option<seq<Reference>>)
}

=== FILE: styles.dfy ===
/** The design table: each named design fixes two colours and a font family. */
module Styles {
  import opened Draw

  datatype Style = Style(primary: Colour, secondary: Colour, font: string)

  /** `DESIGN_CONFIGS`. */
  const DesignConfigs: map<string, Style> := map[
    "creative"     := Style(Colour(255, 87, 34), Colour(255, 235, 230), "times"),
    "modern"       := Style(Colour(0, 102, 204), Colour(230, 242, 255), "times"),
    "minimal"      := Style(Colour(0, 0, 0), Colour(255, 255, 255), "times"),
    "executive"    := Style(Colour(44, 62, 80), Colour(236, 240, 241), "times"),
    "classic"      := Style(Colour(50, 50, 50), Colour(245, 245, 245), "times"),
    "corporate"    := Style(Colour(26, 35, 126), Colour(232, 234, 246), "times"),
    "bold"         := Style(Colour(0, 0, 0), Colour(220, 220, 220), "times"),
    "elegant"      := Style(Colour(106, 27, 154), Colour(243, 229, 245), "times"),
    "professional" := Style(Colour(56, 142, 60), Colour(232, 245, 233), "times"),
    "compact"      := Style(Colour(121, 85, 72), Colour(239, 235, 233), "times")
  ]

  const DefaultDesign := "professional"

  const DesignNames: set<string> :=
    {"creative", "modern", "minimal", "executive", "classic",
     "corporate", "bold", "elegant", "professional", "compact"}

  /**
   * `DESIGN_CONFIGS.get(design, DESIGN_CONFIGS["professional"])`: total,
   * always one of the table's entries, the named one when the name is known.
   */
  function LookupStyle(design: string): (s: Style)
    ensures s in DesignConfigs.Values
    ensures design in DesignNames ==> s == DesignConfigs[design]
    ensures design !in DesignNames ==> s == DesignConfigs[DefaultDesign]
    ensures s.font == "times"
  {
    if design in DesignConfigs then DesignConfigs[design] else DesignConfigs[DefaultDesign]
  }

  /** The table holds exactly the ten named designs, each in the "times" family. */
  lemma DesignTableShape()
    ensures DesignConfigs.Keys == DesignNames
    ensures DefaultDesign in DesignConfigs
    ensures forall d :: d in DesignConfigs ==> DesignConfigs[d].font == "times"
  {
  }

  /** Any name outside the table renders exactly as "professional". */
  lemma UnknownDesignFallsBack(design: string)
    requires design !in DesignNames
    ensures LookupStyle(design) == LookupStyle(DefaultDesign)
  {
  }
}

=== FILE: text.dfy ===
/**
 * String helpers used when composing the text of a CV line: ASCII upper-casing
 * (Python's `str.upper`), `sep.join(parts)` and decimal rendering of integers
 * (Python's `str(int)`), each with the inverse or invariant that pins it down.
 */
module Text {

  predicate IsLowerAscii(c: char) { 'a' <= c <= 'z' }

  predicate IsDigit(c: char) { '0' <= c <= '9' }

  /** Upper-case one character; only ASCII letters change. */
  function UpperChar(c: char): (u: char)
    ensures !IsLowerAscii(u)
    ensures IsLowerAscii(c) ==> u as int == c as int - 32
    ensures !IsLowerAscii(c) ==> u == c
  {
    if IsLowerAscii(c) then (c as int - 32) as char else c
  }

  /** `s.upper()`, restricted to the ASCII range. */
  function Upper(s: string): (r: string)
    ensures |r| == |s|
    ensures forall i :: 0 <= i < |s| ==> r[i] == UpperChar(s[i])
  {
    seq(|s|, i requires 0 <= i < |s| => UpperChar(s[i]))
  }

  /** Upper-casing twice is upper-casing once. */
  lemma UpperIdempotent(s: string)
    ensures Upper(Upper(s)) == Upper(s)
  {
    var u := Upper(s);
    assert forall i :: 0 <= i < |u| ==> UpperChar(u[i]) == u[i];
  }

  predicate HasPrefix(s: string, p: string) { |p| <= |s| && s[..|p|] == p }

  predicate HasSuffix(s: string, p: string) { |p| <= |s| && s[|s| - |p|..] == p }

  /** `sep.join(parts)`. */
  function Join(parts: seq<string>, sep: string): (r: string)
    ensures parts == [] ==> r == ""
    ensures |parts| == 1 ==> r == parts[0]
    ensures |parts| > 1 ==> HasPrefix(r, parts[0] + sep)
  {
    if |parts| == 0 then ""
    else if |parts| == 1 then parts[0]
    else parts[0] + sep + Join(parts[1..], sep)
  }

  function TotalLength(parts: seq<string>): nat
  {
    if parts == [] then 0 else |parts[0]| + TotalLength(parts[1..])
  }

  /** The joined text holds every part plus one separator between neighbours. */
  lemma {:induction false} JoinLength(parts: seq<string>, sep: string)
    ensures |Join(parts, sep)| == TotalLength(parts) + (if parts == [] then 0 else (|parts| - 1) * |sep|)
  {
    if |parts| > 1 {
      JoinLength(parts[1..], sep);
    }
  }

  /** Where part `i` starts inside `Join(parts, sep)`. */
  function PartOffset(parts: seq<string>, sep: string, i: nat): nat
    requires i < |parts|
  {
    if i == 0 then 0 else |parts[0]| + |sep| + PartOffset(parts[1..], sep, i - 1)
  }

  /** A slice of the second half of a concatenation is a slice of that half. */
  lemma SliceAfter(a: string, b: string, x: nat, y: nat)
    requires x <= y <= |b|
    ensures (a + b)[|a| + x..|a| + y] == b[x..y]
  {
    var c := a + b;
    assert forall t :: 0 <= t < y - x ==> c[|a| + x..|a| + y][t] == b[x..y][t];
  }

  /** Every part appears, unchanged, at its offset in the joined text. */
  lemma {:induction false} JoinContainsPart(parts: seq<string>, sep: string, i: nat)
    requires i < |parts|
    ensures PartOffset(parts, sep, i) + |parts[i]| <= |Join(parts, sep)|
    ensures Join(parts, sep)[PartOffset(parts, sep, i)..PartOffset(parts, sep, i) + |parts[i]|] == parts[i]
  {
    if i == 0 {
      var j := Join(parts, sep);
      assert j[..|parts[0]|] == parts[0];
    } else {
      var tail := parts[1..];
      JoinContainsPart(tail, sep, i - 1);
      var o := PartOffset(tail, sep, i - 1);
      assert tail[i - 1] == parts[i];
      assert Join(parts, sep) == (parts[0] + sep) + Join(tail, sep);
      SliceAfter(parts[0] + sep, Join(tail, sep), o, o + |parts[i]|);
    }
  }

  function DigitChar(d: nat): (c: char)
    requires d < 10
    ensures IsDigit(c)
  {
    ('0' as int + d) as char
  }

  function DigitValue(c: char): (d: nat)
    requires IsDigit(c)
    ensures d < 10
  {
    c as int - '0' as int
  }

  /** At least one digit, and no leading zero unless the text is just "0". */
  predicate IsCanonicalDigits(d: string)
  {
    |d| >= 1 && (forall i :: 0 <= i < |d| ==> IsDigit(d[i])) && (d[0] == '0' ==> |d| == 1)
  }

  /** `str(n)` for a non-negative integer: digits, no leading zero. */
  function NatToDecimal(n: nat): (s: string)
    ensures IsCanonicalDigits(s)
    ensures s[0] == '0' <==> n == 0
    decreases n
  {
    if n < 10 then [DigitChar(n)] else NatToDecimal(n / 10) + [DigitChar(n % 10)]
  }

  /** An optional '-' followed by at least one digit. */
  predicate IsDecimal(s: string)
  {
    var start := if |s| > 0 && s[0] == '-' then 1 else 0;
    start < |s| && forall i :: start <= i < |s| ==> IsDigit(s[i])
  }

  /**
   * The form Python's `str` gives an integer: canonical digits, preceded by
   * '-' only when they are not "0".
   */
  predicate IsCanonicalDecimal(s: string)
  {
    if |s| > 0 && s[0] == '-' then IsCanonicalDigits(s[1..]) && s[1..] != "0"
    else IsCanonicalDigits(s)
  }

  /** `str(n)` for any integer: a leading '-' for negatives. */
  function IntToDecimal(n: int): (s: string)
    ensures IsDecimal(s) && IsCanonicalDecimal(s)
    ensures s[0] == '-' <==> n < 0
  {
    if n < 0 then
      var d := NatToDecimal(-n);
      assert ("-" + d)[1..] == d;
      "-" + d
    else NatToDecimal(n)
  }

  /** Read a digit string back as a number (the inverse of `NatToDecimal`). */
  function DecimalToNat(s: string): nat
    requires forall i :: 0 <= i < |s| ==> IsDigit(s[i])
  {
    if s == [] then 0 else DecimalToNat(s[..|s| - 1]) * 10 + DigitValue(s[|s| - 1])
  }

  /** Read `IntToDecimal` output back, honouring a leading '-'. */
  function DecimalToInt(s: string): int
    requires IsDecimal(s)
  {
    if s[0] == '-' then -(DecimalToNat(s[1..]) as int) else DecimalToNat(s) as int
  }

  lemma {:induction false} NatDecimalRoundTrip(n: nat)
    ensures DecimalToNat(NatToDecimal(n)) == n
    decreases n
  {
    if n >= 10 {
      NatDecimalRoundTrip(n / 10);
      var s := NatToDecimal(n);
      assert s[..|s| - 1] == NatToDecimal(n / 10);
    }
  }

  /** The decimal text of an integer determines the integer. */
  lemma IntDecimalRoundTrip(n: int)
    ensures DecimalToInt(IntToDecimal(n)) == n
  {
    var s := IntToDecimal(n);
    if n < 0 {
      NatDecimalRoundTrip(-n);
      assert s[1..] == NatToDecimal(-n);
    } else {
      NatDecimalRoundTrip(n);
    }
  }

  /** Digits that do not start with '0' stand for a positive number. */
  lemma {:induction false} LeadingDigitPositive(d: string)
    requires |d| >= 1 && (forall i :: 0 <= i < |d| ==> IsDigit(d[i])) && d[0] != '0'
    ensures DecimalToNat(d) > 0
    decreases |d|
  {
    if |d| > 1 {
      LeadingDigitPositive(d[..|d| - 1]);
    } else {
      assert d[..0] == [];
    }
  }

  /** Canonical digits are exactly the text `NatToDecimal` gives their value. */
  lemma {:induction false} CanonicalDigitsRoundTrip(d: string)
    requires IsCanonicalDigits(d)
    ensures NatToDecimal(DecimalToNat(d)) == d
    decreases |d|
  {
    var p := d[..|d| - 1];
    if |d| == 1 {
      assert p == [];
      assert [DigitChar(DigitValue(d[0]))] == d;
    } else {
      LeadingDigitPositive(p);
      CanonicalDigitsRoundTrip(p);
      var n := DecimalToNat(d);
      assert n / 10 == DecimalToNat(p) && n % 10 == DigitValue(d[|d| - 1]);
      assert d == p + [DigitChar(DigitValue(d[|d| - 1]))];
    }
  }

  /**
   * The converse of `IntDecimalRoundTrip`: a canonical decimal text is
   * exactly the `str` of the integer it denotes, so no other text (such as
   * "02020" or "-0") can be the decimal of an integer.
   */
  lemma CanonicalDecimalRoundTrip(s: string)
    requires IsCanonicalDecimal(s)
    ensures IsDecimal(s) && IntToDecimal(DecimalToInt(s)) == s
  {
    if s[0] == '-' {
      var d := s[1..];
      CanonicalDigitsRoundTrip(d);
      LeadingDigitPositive(d);
      assert s == "-" + d;
    } else {
      CanonicalDigitsRoundTrip(s);
    }
  }
}

=== FILE: wrappers.dfy ===
/** Optional values: a dictionary key that may be absent from the CV record. */
module Wrappers {

  datatype Option<+T> = None | Some(value: T) {

    /** The value when present, `default` otherwise (Python's `d.get(k, default)`). */
    function GetOr(default: T): (r: T)
      ensures Some? ==> r == value
      ensures None? ==> r == default
    {
      match this
      case Some(v) => v
      case None => default
    }
  }
}
